=== FILE: README.md ===
# Matchmaking and signaling relay, with the client negotiation lifecycle

This project is a Dafny model of the two state machines that hold the logic of
a random one-to-one video chat.

- **Server** (`backend/src/server.js`). It keeps a FIFO waiting queue of
  socket ids and a map of active rooms, each room holding two socket ids
  (`user1`, `user2`). It pairs the two oldest waiting sockets and relays the
  WebRTC offer, answer and ICE-candidate messages between the two members of
  a room. It also handles skip and disconnect.
- **Client hook** (`frontend/src/hooks/useWebRTC.ts`). It holds the
  connection state (`idle`, `waiting`, `connecting`, `connected`,
  `disconnected`), the current peer connection, the room id, the initiator
  flag, an error text and whether a remote stream is shown. It reacts to
  server messages, to the skip button and to the callbacks of its peer
  connection.

Every handler is a pure function from a state to a new state plus the list
of messages sent, in order.

- On the server, the set of connected sockets (`io.sockets.sockets`) is a
  parameter `live`.
- The room id `generateRoomId` would return (it reads the clock and a random
  number) is a parameter `newId`.
- On the client, each asynchronous WebRTC step (create/apply an offer or an
  answer) has a boolean outcome parameter, and the descriptions and
  candidates it produces are opaque strings.

Modules:

- `RoomTable` (`room_table.dfy`): the rooms map as its entries in insertion
  order, with `get`, `set`, `delete` and the disconnect handler's scan. A
  JavaScript `Map` iterates in insertion order, and the disconnect handler
  cleans up the first matching room and stops, so the order matters.
- `Server` (`server.dfy`): the queue and room operations and the socket
  handlers.
- `ServerSystem` (`server_system.dfy`): the server driven by one socket event
  at a time. It holds the invariant and the client discipline under which the
  invariant holds, and concrete histories.
- `Client` (`client.dfy`) and `ClientLifecycle` (`client_lifecycle.dfy`): the
  hook's handlers, then the hook as one event-driven machine with its
  invariant and composed behaviours.
- `Session` (`session.dfy`): the two sides connected. Client calls become
  server events, and server messages become hook events.

## Behaviour one might not expect (the model follows the code)

- `attemptMatch` pairs at most once per call (`if`, not `while`). Under the
  server invariant the queue never holds more than one socket, so FIFO
  fairness holds trivially.
- When a socket of the popped pair is gone, one would expect the survivor to
  keep its place at the front of the queue. The code appends it at the tail
  (`Server.SurvivorGoesToTail`). If both are gone, both ids are queued again,
  the second one first (`Server.BothGoneBothRequeued`). Under the invariant
  this branch never runs (`ServerSystem.JoinPairsWithWaiter`).
- One would expect the relay and skip to check that the sender is a member
  of the room. The code does not check: a sender that is not `user1` is
  answered with `user1` (`Server.Other`, `Server.Relay`).
- One would expect a negotiation failure to move the client to
  `disconnected` and to destroy the room on the server. No failure path of
  the hook tells the server anything:
  - When the initiator cannot create its offer, the hook sets an error,
    tears down locally and stays `connecting`. It sends nothing, so the
    server room survives (`ClientLifecycle.StuckAfterOfferFailure`).
  - When `handleOffer` or `handleAnswer` fails, the hook sets an error and
    tears down locally. It sends nothing (`Client.HandleOffer`,
    `Client.HandleAnswer`).
  - When the transport fails (`disconnected` or `failed`), the hook moves to
    `disconnected` and tears down. It neither re-joins the queue nor sends
    anything, so the server room survives
    (`ClientLifecycle.FailureSilencesNegotiation`,
    `ClientLifecycle.OutputBounds`).
- "A connection is in at most one room" is not an unconditional invariant.
  The server queues a socket that is already in a room. The invariant is
  proved under a client discipline (`ServerSystem.Disciplined`), and the
  real clients break that discipline (see Findings).

## Model

| member | source | states |
|---|---|---|
| RoomTable.Get | backend/src/server.js:97-98 | a lookup finds a room exactly when the key is in the map; the members of a found room are members of some room |
| RoomTable.KeyIndex | backend/src/server.js:97 | the position found holds the key and no earlier position does; -1 exactly when the key is absent |
| RoomTable.Set | backend/src/server.js:58-62 | after setting, the key maps to the new room and every other key to what it mapped to before; a new key goes to the end of the iteration order; an existing key keeps the length; keys stay unique |
| RoomTable.SetInPlace | backend/src/server.js:58-62 | overwriting an existing key replaces its entry at the same position and leaves every other entry, and the order, as it was |
| RoomTable.Delete | backend/src/server.js:179 | deleting removes exactly that key, keeps every other lookup, shrinks the map by one when the key was present, and keeps key uniqueness, distinct members and one-room-per-connection |
| RoomTable.DeleteInPlace | backend/src/server.js:108 | deleting an existing key removes exactly its entry; the entries before and after it stay, in their order |
| RoomTable.FirstRoomIndex | backend/src/server.js:196-201 | the scan stops at the first room, in insertion order, that has the id as a member, and finds nothing exactly when the id is in no room |
| RoomTable.FindRoomOf | backend/src/server.js:196-199 | the room id the disconnect handler picks is the key of the first room, in insertion order, that has the id as a member; there is none exactly when the id is in no room |
| RoomTable.DeleteFreesMembers | backend/src/server.js:108 | when no connection is in two rooms, deleting a room frees exactly its two members |
| RoomTable.RoomsOfDifferentKeysDisjoint | backend/src/server.js:196-200 | with one room per connection, the rooms under two different ids share no member |
| RoomTable.SizeIsKeyCount | backend/src/server.js:210 | the map's size is the number of distinct room ids |
| Server.IndexOf | backend/src/server.js:88-89 | the position found holds the id and no earlier position does; -1 exactly when the id is absent |
| Server.Other | backend/src/server.js:101 | the answer is always a member of the room; for a member of a room of two different sockets it is the other member; a non-member gets `user1` |
| Server.AttemptMatch | backend/src/server.js:51-84 | fewer than two waiting: nothing changes; otherwise the two oldest leave the queue and the rest keep their order; both connected: one room {first, second}, `matched` initiator=true to the first and false to the second; else no room remains under the new id and the survivors go to the tail; a duplicate-free queue stays so and pairs two different sockets |
| Server.AttemptMatchSetsRoom | backend/src/server.js:58-62 | a successful match stores its room as `set` does: under a new room id the room is appended at the end of the iteration order and every earlier room keeps its place |
| Server.JoinQueue | backend/src/server.js:40-48 | an id already queued changes nothing and emits nothing; a new id is appended and one match attempt follows; the queue stays duplicate-free; a connected joiner ends up waiting or in the new room |
| Server.LeaveQueue | backend/src/server.js:87-93 | an absent id changes nothing; otherwise the first occurrence is removed and the order of the others kept; rooms are untouched |
| Server.LeaveIdempotent | backend/src/server.js:87-93 | on a duplicate-free queue, leaving a second time changes nothing |
| Server.CleanupRoom | backend/src/server.js:96-110 | an unknown room changes nothing; otherwise the room is deleted and the other member, if connected, gets one `peer-disconnected`; the queue is untouched and nothing goes to the leaver |
| Server.Relay | backend/src/server.js:127-163 | an unknown room gives no output; otherwise at most one message, with the same type, room id and payload, to exactly the room member `Other` picks, and only if it is connected; never back to a sender that is a member of a room of two different sockets |
| Server.Skip | backend/src/server.js:166-186 | an unknown room changes nothing; otherwise the other member first gets `peer-disconnected` if connected, the room is deleted, the sender re-joins through the deduplicating join, and the other member re-joins only if connected; the queue stays duplicate-free |
| Server.Disconnect | backend/src/server.js:189-202 | the queue is what leaving the queue gives; an id in no room changes no room and emits nothing; otherwise the result is the room cleanup of the first room holding the id, so exactly one room is deleted; when no socket is in two rooms, the id is then in no room; at most one message, never to the leaver |
| Server.HealthOf | backend/src/server.js:206-211 | status "ok", `queueLength` is the queue's length and `activeRooms` the number of distinct room ids |
| Server.SurvivorGoesToTail | backend/src/server.js:77-80 | with queue [A, B, C] and B gone, A is queued behind C, not at the front |
| Server.BothGoneBothRequeued | backend/src/server.js:79-81 | with both of the pair gone, both are queued again in reverse order and no room remains |
| Server.GuardedJoinQueue | backend/src/server.js:40-48 | the corrected join: a connection in a room changes nothing; anything else behaves as the join |
| ServerSystem.Next | backend/src/server.js:113-203 | a relayed message never changes the queue, the rooms or the connected set; a disconnect removes the socket from the connected set before its handler runs |
| ServerSystem.JoinPreservesInv | backend/src/server.js:40-84 | a disciplined join keeps the invariant, adds at most the new room id, and only the joiner and the waiting socket become room members |
| ServerSystem.SkipPreservesInv | backend/src/server.js:166-186 | a skip of one's own room keeps the invariant |
| ServerSystem.DisconnectPreservesInv | backend/src/server.js:189-202 | a disconnect keeps the invariant, with the socket gone from the connected set |
| ServerSystem.NextPreservesInv | backend/src/server.js:113-203 | every disciplined event keeps the invariant: at most one waiting socket, waiting sockets connected and in no room, unique room ids, two different connected members per room, no socket in two rooms |
| ServerSystem.OneRoomPerConnection | backend/src/server.js:58-62 | under the invariant, rooms under different ids share no member |
| ServerSystem.JoinPairsWithWaiter | backend/src/server.js:51-76 | under the invariant, a join with an empty queue waits alone; with another socket waiting, it appends exactly one room {waiting, joiner}, empties the queue and sends `matched` with the waiting socket as initiator |
| ServerSystem.RelayReachesPeerOnly | backend/src/server.js:127-163 | under the invariant, a member's message reaches exactly the other member, unchanged, and that member is in no other room |
| ServerSystem.DisconnectCleansUp | backend/src/server.js:189-202 | under the invariant, a member's disconnect deletes its room, sends exactly one `peer-disconnected` to the other member, leaves every other room as it was, and leaves the id in neither the queue nor any room |
| ServerSystem.SkipRematchesPair | backend/src/server.js:166-186 | with nobody else waiting, a skip pairs the same two sockets again at once, with the skipper as initiator |
| ServerSystem.ClientRejoinSplitsConnection | backend/src/server.js:40-48 | on a concrete history, accepting join-queue from sockets in a room leaves the same pair in two rooms; after a disconnect, a room remains that names a gone socket |
| ServerSystem.LateJoinOpensSecondRoom | backend/src/server.js:40-62 | a join-queue from B while A waits, with A and B already in room "r3", is accepted and appends a second room "r5" for the same pair |
| ServerSystem.DisconnectLeavesSecondRoom | backend/src/server.js:189-202 | with A in "r3" and then "r5", A's disconnect deletes only "r3", the first in iteration order, and leaves "r5" naming A |
| ServerSystem.GuardedJoinPreservesInv | backend/src/server.js:40-48 | the corrected join keeps the invariant for any connected socket, with no discipline on the caller |
| ServerSystem.GuardedRejoinKeepsOneRoom | backend/src/server.js:40-48 | on the same history, the corrected join ignores the late join-queue calls and the pair keeps one room |
| Client.Initial | frontend/src/hooks/useWebRTC.ts:11-17 | the hook starts idle with no peer connection, room id, error or remote stream |
| Client.Cleanup | frontend/src/hooks/useWebRTC.ts:80-87 | the peer connection, remote stream and room id are cleared; the connection state, error and initiator flag are unchanged |
| Client.HandleMatched | frontend/src/hooks/useWebRTC.ts:89-111 | the state becomes connecting with a new peer connection, the initiator flag set and the stream cleared; exactly one offer for that room goes out, and only from an initiator whose offer succeeded; a failed offer sets 'Failed to create connection' and tears down but stays connecting |
| Client.HandleOffer | frontend/src/hooks/useWebRTC.ts:113-128 | with no peer connection or no room, nothing happens; otherwise exactly one answer, tagged with the current room id; a failure sets 'Failed to establish connection' and tears down, sending nothing |
| Client.HandleAnswer | frontend/src/hooks/useWebRTC.ts:130-140 | nothing is ever sent; with no peer connection, or on success, nothing changes; a failure sets the error and tears down |
| Client.HandleIceCandidate | frontend/src/hooks/useWebRTC.ts:142-150 | a remote candidate changes no part of the hook's state and sends nothing |
| Client.HandlePeerDisconnected | frontend/src/hooks/useWebRTC.ts:152-159 | the hook waits, is torn down, keeps its error and schedules exactly one join-queue |
| Client.Skip | frontend/src/hooks/useWebRTC.ts:161-167 | a skip for the current room goes out only if there is a room; the hook is torn down and waits; no join-queue goes out |
| Client.PressSkip | frontend/src/components/VideoRoom.tsx:53-59 | the skip button does what `skip` does, then schedules one join-queue |
| Client.OnIceCandidate | frontend/src/hooks/useWebRTC.ts:37-41 | a local candidate is sent, tagged with the room, exactly when there is a candidate and a room id; the state never changes |
| Client.OnConnectionStateChange | frontend/src/hooks/useWebRTC.ts:44-65 | `connected` gives connected with no error; `disconnected` or `failed` gives disconnected with the reconnect error and a torn-down hook; `connecting` gives connecting; other values change nothing |
| Client.OnIceConnectionStateChange | frontend/src/hooks/useWebRTC.ts:68-75 | ICE `failed` or `disconnected` only sets 'Network connection issue'; other values change nothing |
| Client.OnTrack | frontend/src/hooks/useWebRTC.ts:30-34 | an event with a stream shows the remote stream; one without changes nothing |
| ClientLifecycle.Next | frontend/src/hooks/useWebRTC.ts:170-189 | only a match creates a peer connection, and it creates exactly one |
| ClientLifecycle.NextPreservesInv | frontend/src/hooks/useWebRTC.ts:80-111 | every event from the current peer connection keeps the invariant: a room id exactly while a peer connection exists, which is the last one created, and a remote stream only with a peer connection |
| ClientLifecycle.OutgoingTaggedWithRoom | frontend/src/hooks/useWebRTC.ts:104-122 | every room-tagged call carries the room the hook was in, except a match's offer, which carries the new room |
| ClientLifecycle.CleanupIdempotent | frontend/src/hooks/useWebRTC.ts:80-87 | tearing down twice is tearing down once |
| ClientLifecycle.OutputBounds | frontend/src/hooks/useWebRTC.ts:152-167 | at most two calls per event, two only for the skip button in a room; join-queue goes out exactly on a departing peer or the skip button |
| ClientLifecycle.Handshake | frontend/src/hooks/useWebRTC.ts:89-134 | an initiator and a responder matched in one room exchange one offer and one answer in that room and are then connected with no error |
| ClientLifecycle.FailureSilencesNegotiation | frontend/src/hooks/useWebRTC.ts:53-58 | after a transport failure, late offers, answers and remote candidates change nothing and send nothing, and local candidates are no longer sent |
| ClientLifecycle.StuckAfterOfferFailure | frontend/src/hooks/useWebRTC.ts:106-110 | after a failed offer the hook is connecting with no peer connection or room, and no sequence of negotiation events moves it or makes it send anything |
| Session.ToServer | frontend/src/services/signaling.ts:38-62 | each signaling call raises the server event of the same kind from the same socket, with the same room id and payload |
| Session.FromServer | frontend/src/hooks/useWebRTC.ts:170-189 | each server message raises the hook handler of the same kind; `matched` keeps its room id and initiator flag |
| Session.MatchToHandshake | backend/src/server.js:51-163 | a join next to a waiting socket yields `matched` to both; the initiator's offer reaches the responder unchanged, and the responder's answer, in the same room, reaches the initiator and changes nothing there |
| Session.ClientsCauseDoubleJoin | frontend/src/components/VideoRoom.tsx:53-59 | after the skip button, A's hook sends the skip and then a join-queue, and B's hook, told its peer left, sends a join-queue; these are exactly the events of the history in `ServerSystem.ClientRejoinSplitsConnection` |

## Findings

| source | as written | input that shows it | evidently intended | confidence | as-written member | corrected member |
|---|---|---|---|---|---|---|
| backend/src/server.js:40-48 | `handleJoinQueue` queues a socket that is already a member of a room | Room r1 = {A, B}, both connected, empty queue. A skips, and the server re-pairs A and B in r3. A's client sends the join-queue its skip button schedules (frontend/src/components/VideoRoom.tsx:56-58). B's client sends the one its peer-disconnected handler schedules (frontend/src/hooks/useWebRTC.ts:156-158). A and B are now in both r3 and r5. When A disconnects, only r3 is cleaned up. | a socket is in at most one room; a join-queue from a socket in a room is ignored (proved in `ServerSystem.GuardedJoinPreservesInv`) | medium; not executed | ServerSystem.ClientRejoinSplitsConnection | Server.GuardedJoinQueue |

The server model (`ServerSystem.Next`) keeps the join as written, because it
models the code. Its invariant proof asks callers to join only while in no
room. That is the same condition the corrected join checks for itself.

## Left out

- Express, socket.io and CORS setup, `server.listen`, logging and environment
  configuration (backend/src/server.js:1-28, 214-219): I/O plumbing. Socket
  reachability is the `live` set, and emits are the output list.
- `generateRoomId` (backend/src/server.js:35-37): it reads the clock and a
  random number. The id is a parameter, and the invariant proofs assume it is
  new.
- The `createdAt` field of a room and `socket.join(roomId)`: neither is ever
  read. Relaying uses the room map, not socket.io rooms.
- RTCPeerConnection internals: ICE servers, `addTrack` of the local stream,
  and the contents of SDP and candidates. Async outcomes are booleans and
  payloads are opaque.
- Await interleavings: each hook handler is one atomic transition, including
  the awaits inside `handleMatched` and `handleOffer`.
- `handleMatched` replaces the previous peer connection without closing it.
  The model names peer connections by creation number. Callbacks of a
  replaced or closed peer connection are not modelled
  (`ClientLifecycle.FromCurrentPeer`).
- `setTimeout` delays (1000 ms in `handlePeerDisconnected`, 500 ms in the
  skip button): the scheduled join-queue is an emitted call with no timing.
- React wiring (frontend/src/hooks/useWebRTC.ts:170-205): the `off*` calls
  and the unmount effect are framework behaviour. The unmount effect runs
  `cleanup`, which `Client.Cleanup` models.
- `frontend/src/services/signaling.ts` connection handling,
  `frontend/src/hooks/useSocket.ts` and `frontend/src/hooks/useMediaStream.ts`:
  socket and media-device plumbing. Only the event names are kept, in
  `Session.ToServer`.
- UI components, including the end-call button and the leave-queue sent on
  unmount in `VideoRoom`: presentation. Only the skip button's scheduled
  join is kept (`Client.PressSkip`).
- Concurrency: none beyond one event at a time.
- Empty room ids: the hook tests its room id by JavaScript truthiness, so an
  empty string counts as no room (frontend/src/hooks/useWebRTC.ts:38, 114,
  162). The model treats any `Some(id)` as a room, `Some("")` included.
  The server never issues an empty id, because `generateRoomId` always
  returns a `room_` prefix (backend/src/server.js:36).

=== FILE: client.dfy ===
/** The negotiation lifecycle of `frontend/src/hooks/useWebRTC.ts`.  The
    hook's React state and refs form one record; every handler and peer
    connection callback is a pure transition that returns the new record
    and the signaling calls it makes, in order.  The outcome of an
    asynchronous WebRTC step (creating or applying a description) is a
    boolean input, and the descriptions and candidates it produces are
    opaque payloads. */
module Client {
  import opened Wrappers
  import opened RoomTable
  type Payload = string

  /** `ConnectionState` of `frontend/src/types/index.ts`. */
  datatype ConnectionState = Idle | Waiting | Connecting | Connected | Disconnected

  /** The values of `RTCPeerConnection.connectionState`. */
  datatype PeerState = PcNew | PcConnecting | PcConnected | PcDisconnected | PcFailed | PcClosed

  /** The values of `RTCPeerConnection.iceConnectionState`. */
  datatype IceState = IceNew | IceChecking | IceConnected | IceCompleted | IceDisconnected | IceFailed | IceClosed

  /** The hook's state.  A peer connection is named by its creation number;
      `created` counts the peer connections made so far, so that a new one
      is told apart from an old one. */
  datatype ClientState = ClientState(
    connection: ConnectionState,
    peer: Option<nat>,
    created: nat,
    roomId: Option<RoomId>,
    initiator: bool,
    error: Option<string>,
    remoteStream: bool)

  /** The calls the hook makes on the signaling service. */
  datatype Outgoing =
    | JoinQueue
    | SendOffer(roomId: RoomId, sdp: Payload)
    | SendAnswer(roomId: RoomId, sdp: Payload)
    | SendIceCandidate(roomId: RoomId, candidate: Payload)
    | SendSkip(roomId: RoomId)

  datatype Reaction = Reaction(state: ClientState, out: seq<Outgoing>)

  const OfferFailed := "Failed to create connection"
  const NegotiationFailed := "Failed to establish connection"
  const TransportFailed := "Connection failed. Trying to reconnect..."
  const NetworkIssue := "Network connection issue"

  /** The hook's state when it mounts. */
  function Initial(): (s: ClientState)
    ensures s.connection == Idle
    ensures s.peer.None? && s.roomId.None? && s.error.None? && !s.remoteStream
  {
    ClientState(Idle, None, 0, None, false, None, false)
  }

  /** `cleanup`: closes and forgets the peer connection, clears the remote
      stream and the room id. */
  function Cleanup(s: ClientState): (r: ClientState)
    ensures r.peer.None? && r.roomId.None? && !r.remoteStream
    ensures r.connection == s.connection && r.error == s.error
    ensures r.initiator == s.initiator && r.created == s.created
  {
    s.(peer := None, remoteStream := false, roomId := None)
  }

  /** `handleMatched(roomId, initiator)`: a new peer connection for the
      room; the initiator then creates and sends an offer, and
      `offerOk` says whether creating and applying it succeeded. */
  function HandleMatched(s: ClientState, roomId: RoomId, initiator: bool, offerOk: bool, offer: Payload): (r: Reaction)
    ensures r.state.connection == Connecting
    ensures r.state.initiator == initiator && r.state.created == s.created + 1
    ensures !r.state.remoteStream
    ensures !initiator || offerOk ==>
      r.state.roomId == Some(roomId) && r.state.peer == Some(s.created) && r.state.error.None?
    ensures initiator && !offerOk ==>
      r.state.roomId.None? && r.state.peer.None? && r.state.error == Some(OfferFailed)
    ensures r.out == if initiator && offerOk then [SendOffer(roomId, offer)] else []
  {
    var matched := s.(roomId := Some(roomId), initiator := initiator, connection := Connecting,
                      error := None, remoteStream := false,
                      peer := Some(s.created), created := s.created + 1);
    if !initiator then Reaction(matched, [])
    else if offerOk then Reaction(matched, [SendOffer(roomId, offer)])
    else Reaction(Cleanup(matched.(error := Some(OfferFailed))), [])
  }

  /** `handleOffer(sdp)`: ignored without a peer connection or a room;
      otherwise applies the offer and answers it under the current room id.
      The room id carried by the incoming offer is not consulted. */
  function HandleOffer(s: ClientState, answerOk: bool, answer: Payload): (r: Reaction)
    ensures s.peer.None? || s.roomId.None? ==> r == Reaction(s, [])
    ensures s.peer.Some? && s.roomId.Some? && answerOk ==>
      r == Reaction(s, [SendAnswer(s.roomId.value, answer)])
    ensures s.peer.Some? && s.roomId.Some? && !answerOk ==>
      r.out == [] && r.state == Cleanup(s).(error := Some(NegotiationFailed))
  {
    if s.peer.None? || s.roomId.None? then Reaction(s, [])
    else if answerOk then Reaction(s, [SendAnswer(s.roomId.value, answer)])
    else Reaction(Cleanup(s.(error := Some(NegotiationFailed))), [])
  }

  /** `handleAnswer(sdp)`: ignored without a peer connection; a failure to
      apply the answer is reported and tears the connection down. */
  function HandleAnswer(s: ClientState, applyOk: bool): (r: Reaction)
    ensures r.out == []
    ensures s.peer.None? || applyOk ==> r.state == s
    ensures s.peer.Some? && !applyOk ==> r.state == Cleanup(s).(error := Some(NegotiationFailed))
  {
    if s.peer.None? || applyOk then Reaction(s, [])
    else Reaction(Cleanup(s.(error := Some(NegotiationFailed))), [])
  }

  /** `handleIceCandidate(candidate)`: hands the candidate to the peer
      connection, if there is one.  A failure is only logged (and the
      promise `addIceCandidate` returns is not awaited), so the hook's state
      never changes. */
  function HandleIceCandidate(s: ClientState): (r: Reaction)
    ensures r.state == s && r.out == []
  {
    Reaction(s, [])
  }

  /** `handlePeerDisconnected`: back to waiting, tear down, and schedule
      one join-queue. */
  function HandlePeerDisconnected(s: ClientState): (r: Reaction)
    ensures r.state.connection == Waiting
    ensures r.state.peer.None? && r.state.roomId.None? && !r.state.remoteStream
    ensures r.state.error == s.error
    ensures r.out == [JoinQueue]
  {
    Reaction(Cleanup(s.(connection := Waiting)), [JoinQueue])
  }

  /** `skip`: tells the server about the room being left, if any, tears
      down and waits.  It does not itself ask to join the queue. */
  function Skip(s: ClientState): (r: Reaction)
    ensures r.state.connection == Waiting
    ensures r.state.peer.None? && r.state.roomId.None? && !r.state.remoteStream
    ensures r.state.error == s.error
    ensures r.out == if s.roomId.Some? then [SendSkip(s.roomId.value)] else []
    ensures JoinQueue !in r.out
  {
    var out := if s.roomId.Some? then [SendSkip(s.roomId.value)] else [];
    Reaction(Cleanup(s).(connection := Waiting), out)
  }

  /** `onicecandidate`: a locally found candidate goes out only while a
      room id is set; the end-of-candidates event (no candidate) sends
      nothing. */
  function OnIceCandidate(s: ClientState, candidate: Option<Payload>): (r: Reaction)
    ensures r.state == s
    ensures |r.out| <= 1
    ensures |r.out| == 1 <==> candidate.Some? && s.roomId.Some?
    ensures |r.out| == 1 ==> r.out[0] == SendIceCandidate(s.roomId.value, candidate.value)
  {
    if candidate.Some? && s.roomId.Some? then Reaction(s, [SendIceCandidate(s.roomId.value, candidate.value)])
    else Reaction(s, [])
  }

  /** `onconnectionstatechange`. */
  function OnConnectionStateChange(s: ClientState, pc: PeerState): (r: Reaction)
    ensures r.out == []
    ensures pc == PcConnected ==> r.state == s.(connection := Connected, error := None)
    ensures pc == PcDisconnected || pc == PcFailed ==>
      r.state.connection == Disconnected && r.state.error == Some(TransportFailed)
      && r.state.peer.None? && r.state.roomId.None? && !r.state.remoteStream
    ensures pc == PcConnecting ==> r.state == s.(connection := Connecting)
    ensures pc in {PcNew, PcClosed} ==> r.state == s
  {
    match pc
    case PcConnected => Reaction(s.(connection := Connected, error := None), [])
    case PcDisconnected | PcFailed =>
      Reaction(Cleanup(s.(connection := Disconnected, error := Some(TransportFailed))), [])
    case PcConnecting => Reaction(s.(connection := Connecting), [])
    case _ => Reaction(s, [])
  }

  /** `oniceconnectionstatechange`: only reports a network problem. */
  function OnIceConnectionStateChange(s: ClientState, ice: IceState): (r: Reaction)
    ensures r.out == []
    ensures ice in {IceFailed, IceDisconnected} ==> r.state == s.(error := Some(NetworkIssue))
    ensures ice !in {IceFailed, IceDisconnected} ==> r.state == s
  {
    if ice == IceFailed || ice == IceDisconnected then Reaction(s.(error := Some(NetworkIssue)), [])
    else Reaction(s, [])
  }

  /** `ontrack`: an event that carries a stream shows it. */
  function OnTrack(s: ClientState, hasStream: bool): (r: Reaction)
    ensures r.out == []
    ensures r.state == if hasStream then s.(remoteStream := true) else s
  {
    if hasStream then Reaction(s.(remoteStream := true), []) else Reaction(s, [])
  }

  /** `handleSkip` of `frontend/src/components/VideoRoom.tsx`: the skip
      button runs `skip` and schedules one join-queue. */
  function PressSkip(s: ClientState): (r: Reaction)
    ensures r.state == Skip(s).state
    ensures r.out == Skip(s).out + [JoinQueue]
  {
    var k := Skip(s);
    Reaction(k.state, k.out + [JoinQueue])
  }
}

=== FILE: client_lifecycle.dfy ===
/** The client hook as one state machine: every event the hook reacts to,
    the invariant its handlers keep, and how the handlers compose into the
    negotiation and its failure paths. */
module ClientLifecycle {
  import opened Wrappers
  import opened RoomTable
  import opened Client

  datatype Event =
    | MatchedArrived(roomId: RoomId, initiator: bool, ok: bool, offer: Payload)
    | OfferArrived(ok: bool, answer: Payload)
    | AnswerArrived(ok: bool)
    | CandidateArrived
    | PeerLeft
    | SkipPressed
    | LocalCandidate(candidate: Option<Payload>)
    | PcStateChanged(pc: PeerState)
    | IceStateChanged(ice: IceState)
    | TrackArrived(hasStream: bool)

  /** Whether the event is a callback of a peer connection. */
  predicate IsPeerCallback(e: Event) {
    e.LocalCandidate? || e.PcStateChanged? || e.IceStateChanged? || e.TrackArrived?
  }

  function Next(s: ClientState, e: Event): (r: Reaction)
    ensures !e.MatchedArrived? ==> r.state.created == s.created
    ensures e.MatchedArrived? ==> r.state.created == s.created + 1
  {
    match e
    case MatchedArrived(roomId, initiator, ok, offer) => HandleMatched(s, roomId, initiator, ok, offer)
    case OfferArrived(ok, answer) => HandleOffer(s, ok, answer)
    case AnswerArrived(ok) => HandleAnswer(s, ok)
    case CandidateArrived => HandleIceCandidate(s)
    case PeerLeft => HandlePeerDisconnected(s)
    case SkipPressed => PressSkip(s)
    case LocalCandidate(c) => OnIceCandidate(s, c)
    case PcStateChanged(pc) => OnConnectionStateChange(s, pc)
    case IceStateChanged(ice) => OnIceConnectionStateChange(s, ice)
    case TrackArrived(h) => OnTrack(s, h)
  }

  /** A callback comes from the current peer connection: a closed one, or
      one replaced by a later match, fires nothing that is modelled. */
  predicate FromCurrentPeer(s: ClientState, e: Event) {
    IsPeerCallback(e) ==> s.peer.Some?
  }

  /** The hook holds a room id exactly while it holds a peer connection,
      that peer connection is the last one created, and a remote stream is
      shown only while a peer connection exists. */
  predicate Inv(s: ClientState) {
    && (s.peer.Some? <==> s.roomId.Some?)
    && (s.peer.Some? ==> s.peer.value + 1 == s.created)
    && (s.remoteStream ==> s.peer.Some?)
  }

  lemma InitialInv()
    ensures Inv(Initial())
  {
  }

  lemma NextPreservesInv(s: ClientState, e: Event)
    requires Inv(s)
    requires FromCurrentPeer(s, e)
    ensures Inv(Next(s, e).state)
  {
  }

  /** Every room-tagged call goes to the room the hook was in when the
      event arrived, except the offer of a match, which goes to the new
      room. */
  lemma OutgoingTaggedWithRoom(s: ClientState, e: Event)
    ensures forall o :: o in Next(s, e).out && !o.JoinQueue? ==>
      if e.MatchedArrived? then o == SendOffer(e.roomId, e.offer)
      else s.roomId == Some(o.roomId)
  {
  }

  /** `cleanup` is idempotent. */
  lemma CleanupIdempotent(s: ClientState)
    ensures Cleanup(Cleanup(s)) == Cleanup(s)
  {
  }

  /** Only a match, a skip, a departing peer and the two local
      notifications that report on the peer connection emit anything; the
      hook sends at most two calls per event, and the only event that sends
      two is the skip button of a client in a room. */
  lemma OutputBounds(s: ClientState, e: Event)
    ensures |Next(s, e).out| <= 2
    ensures |Next(s, e).out| == 2 <==> e.SkipPressed? && s.roomId.Some?
    ensures JoinQueue in Next(s, e).out <==> e.PeerLeft? || e.SkipPressed?
  {
  }

  /** The happy path between an initiator and a responder matched in the
      same room: the initiator's offer is answered in that room, the
      answer changes nothing on the initiator, and once each transport
      reports `connected` both are connected with no error. */
  lemma Handshake(a: ClientState, b: ClientState, roomId: RoomId, offer: Payload, answer: Payload)
    ensures
      var ma := HandleMatched(a, roomId, true, true, offer);
      var mb := HandleMatched(b, roomId, false, true, "");
      var ob := HandleOffer(mb.state, true, answer);
      var aa := HandleAnswer(ma.state, true);
      var ca := OnConnectionStateChange(aa.state, PcConnected);
      var cb := OnConnectionStateChange(ob.state, PcConnected);
      && ma.out == [SendOffer(roomId, offer)]
      && mb.out == []
      && ob.out == [SendAnswer(roomId, answer)]
      && aa == Reaction(ma.state, [])
      && ca.state.connection == Connected && ca.state.error.None? && ca.state.roomId == Some(roomId)
      && cb.state.connection == Connected && cb.state.error.None? && cb.state.roomId == Some(roomId)
  {
  }

  /** After the transport reports failure, the negotiation is silent: late
      offers, answers and remote candidates change nothing and send
      nothing, and local candidates are no longer sent. */
  lemma FailureSilencesNegotiation(s: ClientState, pc: PeerState, ok: bool, reply: Payload, c: Option<Payload>)
    requires pc == PcFailed || pc == PcDisconnected
    ensures
      var f := OnConnectionStateChange(s, pc).state;
      && f.connection == Disconnected
      && HandleOffer(f, ok, reply) == Reaction(f, [])
      && HandleAnswer(f, ok) == Reaction(f, [])
      && HandleIceCandidate(f) == Reaction(f, [])
      && OnIceCandidate(f, c) == Reaction(f, [])
  {
  }

  /** When the initiator cannot create its offer, the hook is left
      `connecting` with no peer connection and no room, and it stays so,
      sending nothing, until a match, a departing peer or the skip button
      moves it; in particular it never re-queues by itself. */
  lemma {:induction false} StuckAfterOfferFailure(s: ClientState, roomId: RoomId, offer: Payload, events: seq<Event>)
    requires forall i :: 0 <= i < |events| ==>
      !events[i].MatchedArrived? && !events[i].PeerLeft? && !events[i].SkipPressed? && !IsPeerCallback(events[i])
    ensures
      var f := HandleMatched(s, roomId, true, false, offer).state;
      && f.connection == Connecting && f.peer.None? && f.roomId.None? && f.error == Some(OfferFailed)
      && Run(f, events) == Reaction(f, [])
    decreases |events|
  {
    var f := HandleMatched(s, roomId, true, false, offer).state;
    if |events| > 0 {
      StuckAfterOfferFailure(s, roomId, offer, events[1..]);
      assert Next(f, events[0]) == Reaction(f, []);
    }
  }

  /** The hook run on a sequence of events: the final state and every call
      made, in order. */
  function Run(s: ClientState, events: seq<Event>): (r: Reaction)
    ensures |events| == 0 ==> r == Reaction(s, [])
    decreases |events|
  {
    if |events| == 0 then Reaction(s, [])
    else
      var first := Next(s, events[0]);
      var rest := Run(first.state, events[1..]);
      Reaction(rest.state, first.out + rest.out)
  }
}

=== FILE: room_table.dfy ===
/** The server's `activeRooms`: a JavaScript `Map` from room id to the two
    connection ids of that room.  A JavaScript `Map` iterates in insertion
    order, and the disconnect handler relies on that order (it cleans up the
    first room it meets and stops), so the map is kept as its list of
    entries in insertion order.  `createdAt` is written but never read, so
    it is left out of a room. */
module RoomTable {
  import opened Wrappers

  type ConnId = string
  type RoomId = string

  datatype Room = Room(user1: ConnId, user2: ConnId)

  function Members(r: Room): set<ConnId> {
    {r.user1, r.user2}
  }

  predicate HasMember(r: Room, id: ConnId) {
    r.user1 == id || r.user2 == id
  }

  datatype Entry = Entry(key: RoomId, room: Room)

  /** The entries of the map, oldest insertion first. */
  type Table = seq<Entry>

  function Keys(t: Table): set<RoomId>
    decreases |t|
  {
    if |t| == 0 then {} else {t[0].key} + Keys(t[1..])
  }

  /** Every connection id that is a member of some room. */
  function Occupied(t: Table): set<ConnId>
    decreases |t|
  {
    if |t| == 0 then {} else Members(t[0].room) + Occupied(t[1..])
  }

  /** A `Map` never holds a key twice. */
  predicate KeysUnique(t: Table)
    decreases |t|
  {
    |t| == 0 || (t[0].key !in Keys(t[1..]) && KeysUnique(t[1..]))
  }

  /** No connection id is a member of two rooms. */
  predicate OneRoomEach(t: Table)
    decreases |t|
  {
    |t| == 0 || (Members(t[0].room) !! Occupied(t[1..]) && OneRoomEach(t[1..]))
  }

  /** Every room pairs two different connections. */
  predicate DistinctMembers(t: Table) {
    forall i :: 0 <= i < |t| ==> t[i].room.user1 != t[i].room.user2
  }

  /** `Map.prototype.get`. */
  function Get(t: Table, k: RoomId): (r: Option<Room>)
    ensures r.Some? <==> k in Keys(t)
    ensures r.Some? ==> Members(r.value) <= Occupied(t)
    ensures r.Some? && DistinctMembers(t) ==> r.value.user1 != r.value.user2
    decreases |t|
  {
    if |t| == 0 then None
    else if t[0].key == k then Some(t[0].room)
    else Get(t[1..], k)
  }

  /** Position of the entry with key `k` (the first, should there be
      several); -1 when there is none. */
  function KeyIndex(t: Table, k: RoomId): (i: int)
    ensures -1 <= i < |t|
    ensures i == -1 <==> k !in Keys(t)
    ensures 0 <= i ==> t[i].key == k
    ensures 0 <= i ==> forall j :: 0 <= j < i ==> t[j].key != k
    decreases |t|
  {
    if |t| == 0 then -1
    else if t[0].key == k then 0
    else
      var j := KeyIndex(t[1..], k);
      if j == -1 then -1 else j + 1
  }

  /** `Map.prototype.set`: an existing key keeps its place and gets the new
      value, a new key goes to the end of the iteration order. */
  function Set(t: Table, k: RoomId, v: Room): (r: Table)
    ensures Keys(r) == Keys(t) + {k}
    ensures Get(r, k) == Some(v)
    ensures forall k' :: k' != k ==> Get(r, k') == Get(t, k')
    ensures k !in Keys(t) ==> r == t + [Entry(k, v)]
    ensures k in Keys(t) ==> |r| == |t|
    ensures KeysUnique(t) ==> KeysUnique(r)
    decreases |t|
  {
    if |t| == 0 then [Entry(k, v)]
    else if t[0].key == k then [Entry(k, v)] + t[1..]
    else
      assert t == [t[0]] + t[1..];
      [t[0]] + Set(t[1..], k, v)
  }

  /** `Map.prototype.delete`: removes the entry for the key, if any, and
      keeps the order of the others. */
  function Delete(t: Table, k: RoomId): (r: Table)
    ensures k !in Keys(t) ==> r == t
    ensures k in Keys(t) ==> |r| == |t| - 1
    ensures Keys(r) <= Keys(t)
    ensures forall k' :: k' != k ==> Get(r, k') == Get(t, k')
    ensures KeysUnique(t) ==> KeysUnique(r) && Keys(r) == Keys(t) - {k}
    ensures Occupied(r) <= Occupied(t)
    ensures OneRoomEach(t) ==> OneRoomEach(r)
    ensures DistinctMembers(t) ==> DistinctMembers(r)
    decreases |t|
  {
    if |t| == 0 then t
    else if t[0].key == k then t[1..]
    else
      var rest := Delete(t[1..], k);
      assert ([t[0]] + rest)[1..] == rest;
      [t[0]] + rest
  }

  /** Position of the first room, in iteration order, that has `id` as a
      member; -1 when there is none. */
  function FirstRoomIndex(t: Table, id: ConnId): (i: int)
    ensures -1 <= i < |t|
    ensures i == -1 <==> id !in Occupied(t)
    ensures 0 <= i ==> HasMember(t[i].room, id)
    ensures 0 <= i ==> forall j :: 0 <= j < i ==> !HasMember(t[j].room, id)
    decreases |t|
  {
    if |t| == 0 then -1
    else if HasMember(t[0].room, id) then 0
    else
      var j := FirstRoomIndex(t[1..], id);
      if j == -1 then -1 else j + 1
  }

  /** The key of the first room, in iteration order, that has `id` as a
      member. */
  function FindRoomOf(t: Table, id: ConnId): (r: Option<RoomId>)
    ensures r.None? <==> id !in Occupied(t)
    ensures r.Some? ==> 0 <= FirstRoomIndex(t, id) && r.value == t[FirstRoomIndex(t, id)].key
    ensures r.Some? && KeysUnique(t) ==>
      Get(t, r.value).Some? && HasMember(Get(t, r.value).value, id)
  {
    var i := FirstRoomIndex(t, id);
    if i == -1 then None
    else
      assert KeysUnique(t) ==> Get(t, t[i].key) == Some(t[i].room) by {
        if KeysUnique(t) { GetAtIndex(t, i); }
      }
      Some(t[i].key)
  }

  /** With unique keys, looking up the key of an entry finds that entry. */
  lemma {:induction false} GetAtIndex(t: Table, i: int)
    requires KeysUnique(t)
    requires 0 <= i < |t|
    ensures Get(t, t[i].key) == Some(t[i].room)
    decreases |t|
  {
    if i > 0 {
      assert t[i].key == t[1..][i - 1].key;
      KeyAtIndex(t[1..], i - 1);
      GetAtIndex(t[1..], i - 1);
    }
  }

  lemma {:induction false} KeyAtIndex(t: Table, i: int)
    requires 0 <= i < |t|
    ensures t[i].key in Keys(t)
    decreases |t|
  {
    if i > 0 {
      assert t[i] == t[1..][i - 1];
      KeyAtIndex(t[1..], i - 1);
    }
  }

  lemma {:induction false} OccupiedAppend(t: Table, e: Entry)
    ensures Occupied(t + [e]) == Occupied(t) + Members(e.room)
    decreases |t|
  {
    if |t| > 0 {
      assert (t + [e])[1..] == t[1..] + [e];
      OccupiedAppend(t[1..], e);
    }
  }

  /** Appending a room whose members are in no room keeps every
      connection in at most one room. */
  lemma {:induction false} OneRoomEachAppend(t: Table, e: Entry)
    requires OneRoomEach(t)
    requires Members(e.room) !! Occupied(t)
    ensures OneRoomEach(t + [e])
    decreases |t|
  {
    if |t| == 0 {
      assert t + [e] == [e];
    } else {
      assert (t + [e])[1..] == t[1..] + [e];
      OneRoomEachAppend(t[1..], e);
      OccupiedAppend(t[1..], e);
    }
  }

  /** Deleting the key that was just appended restores the table. */
  lemma {:induction false} DeleteAppended(t: Table, e: Entry)
    requires e.key !in Keys(t)
    ensures Delete(t + [e], e.key) == t
    decreases |t|
  {
    if |t| == 0 {
      assert t + [e] == [e];
    } else {
      assert (t + [e])[1..] == t[1..] + [e];
      DeleteAppended(t[1..], e);
    }
  }

  /** Overwriting an existing key keeps the entry at its insertion
      position: `Map.prototype.set` does not reorder. */
  lemma {:induction false} SetInPlace(t: Table, k: RoomId, v: Room)
    requires k in Keys(t)
    ensures Set(t, k, v) == t[..KeyIndex(t, k)] + [Entry(k, v)] + t[KeyIndex(t, k) + 1..]
    decreases |t|
  {
    if t[0].key != k {
      var rest := t[1..];
      var j := KeyIndex(rest, k);
      assert KeyIndex(t, k) == j + 1;
      calc {
        Set(t, k, v);
        [t[0]] + Set(rest, k, v);
        { SetInPlace(rest, k, v); }
        [t[0]] + (rest[..j] + [Entry(k, v)] + rest[j + 1..]);
        { assert t[..j + 1] == [t[0]] + rest[..j];
          assert t[j + 2..] == rest[j + 1..]; }
        t[..j + 1] + [Entry(k, v)] + t[j + 2..];
      }
    }
  }

  /** Deleting an existing key removes exactly its entry and leaves the
      others in their insertion order. */
  lemma {:induction false} DeleteInPlace(t: Table, k: RoomId)
    requires k in Keys(t)
    ensures Delete(t, k) == t[..KeyIndex(t, k)] + t[KeyIndex(t, k) + 1..]
    decreases |t|
  {
    if t[0].key != k {
      var j := KeyIndex(t[1..], k);
      DeleteInPlace(t[1..], k);
      assert KeyIndex(t, k) == j + 1;
      assert t[..j + 1] == [t[0]] + t[1..][..j];
      assert t[j + 2..] == t[1..][j + 1..];
    }
  }

  /** Deleting a room of a table where every connection is in at most one
      room frees exactly that room's members. */
  lemma {:induction false} DeleteFreesMembers(t: Table, k: RoomId, room: Room)
    requires KeysUnique(t) && OneRoomEach(t)
    requires Get(t, k) == Some(room)
    ensures Occupied(Delete(t, k)) == Occupied(t) - Members(room)
    decreases |t|
  {
    if t[0].key != k {
      DeleteFreesMembers(t[1..], k, room);
      var rest := Delete(t[1..], k);
      assert ([t[0]] + rest)[1..] == rest;
    }
  }

  /** `OneRoomEach`, read pairwise: two different entries never share a
      member. */
  lemma {:induction false} OneRoomEachPairwise(t: Table, i: int, j: int)
    requires OneRoomEach(t)
    requires 0 <= i < j < |t|
    ensures Members(t[i].room) !! Members(t[j].room)
    decreases |t|
  {
    if i == 0 {
      assert t[j] == t[1..][j - 1];
      OccupiedAtIndex(t[1..], j - 1);
    } else {
      assert t[i] == t[1..][i - 1] && t[j] == t[1..][j - 1];
      OneRoomEachPairwise(t[1..], i - 1, j - 1);
    }
  }

  lemma {:induction false} OccupiedAtIndex(t: Table, i: int)
    requires 0 <= i < |t|
    ensures Members(t[i].room) <= Occupied(t)
    decreases |t|
  {
    if i > 0 {
      assert t[i] == t[1..][i - 1];
      OccupiedAtIndex(t[1..], i - 1);
    }
  }

  /** Where `Get` found its answer: the first entry with the key. */
  lemma {:induction false} GetIndex(t: Table, k: RoomId) returns (i: int)
    requires k in Keys(t)
    ensures 0 <= i < |t| && t[i].key == k && Get(t, k) == Some(t[i].room)
    decreases |t|
  {
    if t[0].key == k {
      i := 0;
    } else {
      var j := GetIndex(t[1..], k);
      i := j + 1;
    }
  }

  /** `OneRoomEach`, read through the map: the rooms under two different
      keys share no member. */
  lemma RoomsOfDifferentKeysDisjoint(t: Table, k1: RoomId, k2: RoomId)
    requires OneRoomEach(t)
    requires k1 in Keys(t) && k2 in Keys(t) && k1 != k2
    ensures Members(Get(t, k1).value) !! Members(Get(t, k2).value)
  {
    var i := GetIndex(t, k1);
    var j := GetIndex(t, k2);
    if i < j {
      OneRoomEachPairwise(t, i, j);
    } else {
      OneRoomEachPairwise(t, j, i);
    }
  }

  /** The size of a `Map` is its number of distinct keys. */
  lemma {:induction false} SizeIsKeyCount(t: Table)
    requires KeysUnique(t)
    ensures |Keys(t)| == |t|
    decreases |t|
  {
    if |t| > 0 {
      SizeIsKeyCount(t[1..]);
    }
  }
}

=== FILE: server.dfy ===
/** The matchmaking and signaling relay of `backend/src/server.js`.  Each
    socket event is one atomic transition of the server state (the waiting
    queue and the room map) that also yields the messages the server emits,
    in emission order.  Which sockets are still connected
    (`io.sockets.sockets`) is the parameter `live`, and the room id that
    `generateRoomId` would return is the parameter `newId`. */
module Server {
  import opened Wrappers
  import opened RoomTable

  /** The three negotiation message types the server relays. */
  datatype Signal = Offer | Answer | IceCandidate

  /** What the server emits to a socket; payloads are opaque. */
  datatype Message =
    | Matched(roomId: RoomId, initiator: bool)
    | Relayed(kind: Signal, roomId: RoomId, payload: string)
    | PeerDisconnected(roomId: RoomId)

  datatype Emit = Emit(to: ConnId, msg: Message)

  /** `waitingQueue` (oldest first) and `activeRooms`. */
  datatype State = State(queue: seq<ConnId>, rooms: Table)

  /** The state after an event and what was emitted while handling it. */
  datatype Step = Step(state: State, out: seq<Emit>)

  /** The body of the `/health` response. */
  datatype Health = Health(status: string, queueLength: nat, activeRooms: nat)

  const Initial := State([], [])

  predicate NoDup(q: seq<ConnId>) {
    forall i, j :: 0 <= i < j < |q| ==> q[i] != q[j]
  }

  /** `Array.prototype.indexOf`. */
  function IndexOf(q: seq<ConnId>, id: ConnId): (i: int)
    ensures -1 <= i < |q|
    ensures i == -1 <==> id !in q
    ensures 0 <= i ==> q[i] == id && id !in q[..i]
    decreases |q|
  {
    if |q| == 0 then -1
    else if q[0] == id then 0
    else
      var j := IndexOf(q[1..], id);
      assert 0 <= j ==> q[..j + 1] == [q[0]] + q[1..][..j];
      if j == -1 then -1 else j + 1
  }

  /** The member of `room` that is not `id`, as the relay, skip and
      cleanup handlers compute it: anyone but `user1` is answered with
      `user1`. */
  function Other(room: Room, id: ConnId): (o: ConnId)
    ensures HasMember(room, o)
    ensures HasMember(room, id) && room.user1 != room.user2 ==> o != id && Members(room) == {id, o}
    ensures !HasMember(room, id) ==> o == room.user1
  {
    if room.user1 == id then room.user2 else room.user1
  }

  /** `attemptMatch`: pairs the two oldest waiting connections, once. */
  function AttemptMatch(s: State, live: set<ConnId>, newId: RoomId): (r: Step)
    ensures |s.queue| < 2 ==> r == Step(s, [])
    ensures |s.queue| >= 2 ==> |r.state.queue| >= |s.queue| - 2 && r.state.queue[..|s.queue| - 2] == s.queue[2..]
    ensures |s.queue| >= 2 ==> forall k :: k != newId ==> Get(r.state.rooms, k) == Get(s.rooms, k)
    ensures |s.queue| >= 2 && s.queue[0] in live && s.queue[1] in live ==>
      && r.state.queue == s.queue[2..]
      && Get(r.state.rooms, newId) == Some(Room(s.queue[0], s.queue[1]))
      && r.out == [Emit(s.queue[0], Matched(newId, true)), Emit(s.queue[1], Matched(newId, false))]
    ensures |s.queue| >= 2 && (s.queue[0] !in live || s.queue[1] !in live) ==>
      && (KeysUnique(s.rooms) ==> Get(r.state.rooms, newId) == None)
      && (newId !in Keys(s.rooms) ==> r.state.rooms == s.rooms)
      && r.out == []
      && r.state.queue[|s.queue| - 2..] ==
           (if s.queue[0] !in live then [s.queue[1]] else []) + (if s.queue[1] !in live then [s.queue[0]] else [])
    ensures NoDup(s.queue) && |s.queue| >= 2 ==> s.queue[0] != s.queue[1]
    ensures NoDup(s.queue) ==> NoDup(r.state.queue)
    ensures forall x :: x in r.state.queue ==> x in s.queue
  {
    if |s.queue| < 2 then Step(s, [])
    else
      var u1 := s.queue[0];
      var u2 := s.queue[1];
      var rest := s.queue[2..];
      var rooms := Set(s.rooms, newId, Room(u1, u2));
      if u1 in live && u2 in live then
        Step(State(rest, rooms),
             [Emit(u1, Matched(newId, true)), Emit(u2, Matched(newId, false))])
      else
        var q := rest + (if u1 !in live then [u2] else []) + (if u2 !in live then [u1] else []);
        assert q[..|rest|] == rest;
        assert NoDup(s.queue) ==> NoDup(q) by {
          if NoDup(s.queue) {
            forall i, j | 0 <= i < j < |q| ensures q[i] != q[j] {
              assert forall m :: 0 <= m < |rest| ==> rest[m] == s.queue[m + 2];
            }
          }
        }
        assert newId !in Keys(s.rooms) ==> Delete(rooms, newId) == s.rooms by {
          if newId !in Keys(s.rooms) { DeleteAppended(s.rooms, Entry(newId, Room(u1, u2))); }
        }
        Step(State(q, Delete(rooms, newId)), [])
  }

  /** A successful match stores its room with `Map.prototype.set`: a new
      room id goes to the end of the iteration order and every other entry
      keeps its place. */
  lemma AttemptMatchSetsRoom(s: State, live: set<ConnId>, newId: RoomId)
    requires |s.queue| >= 2 && s.queue[0] in live && s.queue[1] in live
    ensures AttemptMatch(s, live, newId).state.rooms == Set(s.rooms, newId, Room(s.queue[0], s.queue[1]))
    ensures newId !in Keys(s.rooms) ==>
      AttemptMatch(s, live, newId).state.rooms == s.rooms + [Entry(newId, Room(s.queue[0], s.queue[1]))]
  {
  }

  /** `handleJoinQueue`: a connection already waiting is ignored; any
      other is appended and one match attempt follows. */
  function JoinQueue(s: State, live: set<ConnId>, id: ConnId, newId: RoomId): (r: Step)
    ensures id in s.queue ==> r == Step(s, [])
    ensures id !in s.queue ==> r == AttemptMatch(State(s.queue + [id], s.rooms), live, newId)
    ensures NoDup(s.queue) ==> NoDup(r.state.queue)
    ensures id in live && id !in s.queue ==>
      id in r.state.queue || (Get(r.state.rooms, newId).Some? && HasMember(Get(r.state.rooms, newId).value, id))
  {
    if id in s.queue then Step(s, [])
    else
      var q := s.queue + [id];
      assert NoDup(s.queue) ==> NoDup(q);
      var r := AttemptMatch(State(q, s.rooms), live, newId);
      assert id in live ==>
        id in r.state.queue || (Get(r.state.rooms, newId).Some? && HasMember(Get(r.state.rooms, newId).value, id)) by {
        if id in live && |q| > 2 {
          assert id == q[2..][|q| - 3];
          assert r.state.queue[..|q| - 2] == q[2..];
          assert id == r.state.queue[|q| - 3];
        }
      }
      r
  }

  /** `handleLeaveQueue`: removes the first occurrence of the id. */
  function LeaveQueue(s: State, id: ConnId): (r: State)
    ensures r.rooms == s.rooms
    ensures id !in s.queue ==> r == s
    ensures id in s.queue ==>
      exists i :: 0 <= i < |s.queue| && s.queue[i] == id && id !in s.queue[..i]
        && r.queue == s.queue[..i] + s.queue[i + 1..]
    ensures NoDup(s.queue) ==> NoDup(r.queue) && id !in r.queue
    ensures forall x :: x in r.queue ==> x in s.queue
  {
    var i := IndexOf(s.queue, id);
    if i > -1 then
      var q := s.queue[..i] + s.queue[i + 1..];
      assert NoDup(s.queue) ==> id !in q by {
        if NoDup(s.queue) {
          forall m | 0 <= m < |q| ensures q[m] != id {
            if m < i { assert q[m] == s.queue[m]; } else { assert q[m] == s.queue[m + 1]; }
          }
        }
      }
      assert NoDup(s.queue) ==> NoDup(q) by {
        if NoDup(s.queue) {
          forall a, b | 0 <= a < b < |q| ensures q[a] != q[b] {
            var a' := if a < i then a else a + 1;
            var b' := if b < i then b else b + 1;
            assert q[a] == s.queue[a'] && q[b] == s.queue[b'];
          }
        }
      }
      State(q, s.rooms)
    else s
  }

  /** `cleanupRoom(roomId, socketId)`: tells the other member, if it is
      still connected, and deletes the room. */
  function CleanupRoom(s: State, live: set<ConnId>, roomId: RoomId, id: ConnId): (r: Step)
    ensures Get(s.rooms, roomId).None? ==> r == Step(s, [])
    ensures r.state.queue == s.queue
    ensures r.state.rooms == Delete(s.rooms, roomId)
    ensures KeysUnique(s.rooms) ==> roomId !in Keys(r.state.rooms)
    ensures Get(s.rooms, roomId).Some? ==>
      var other := Other(Get(s.rooms, roomId).value, id);
      r.out == if other in live then [Emit(other, PeerDisconnected(roomId))] else []
    ensures DistinctMembers(s.rooms) ==> forall e :: e in r.out ==> e.to != id
  {
    match Get(s.rooms, roomId)
    case None => Step(s, [])
    case Some(room) =>
      var other := Other(room, id);
      Step(State(s.queue, Delete(s.rooms, roomId)),
           if other in live then [Emit(other, PeerDisconnected(roomId))] else [])
  }

  /** The `offer`, `answer` and `ice-candidate` handlers: forward the payload
      under the same type and room id to the other member, if the room is
      known and that member is still connected.  Relaying never changes the
      state, so only the emitted messages are returned. */
  function Relay(s: State, live: set<ConnId>, sender: ConnId, kind: Signal, roomId: RoomId, payload: string): (out: seq<Emit>)
    ensures Get(s.rooms, roomId).None? ==> out == []
    ensures |out| <= 1
    ensures forall e :: e in out ==> e.to in live && e.msg == Relayed(kind, roomId, payload)
    ensures Get(s.rooms, roomId).Some? ==>
      var room := Get(s.rooms, roomId).value;
      (forall e :: e in out ==> e.to == Other(room, sender) && HasMember(room, e.to) && (HasMember(room, sender) ==> e.to != sender || room.user1 == room.user2))
      && (Other(room, sender) in live <==> |out| == 1)
  {
    match Get(s.rooms, roomId)
    case None => []
    case Some(room) =>
      var other := Other(room, sender);
      if other in live then [Emit(other, Relayed(kind, roomId, payload))] else []
  }

  /** The `skip` handler: for a known room, tells the other member, deletes
      the room, re-joins the sender and then, if it is still connected, the
      other member.  Each join may match, so each takes its own fresh room id. */
  function Skip(s: State, live: set<ConnId>, sender: ConnId, roomId: RoomId, newId1: RoomId, newId2: RoomId): (r: Step)
    ensures Get(s.rooms, roomId).None? ==> r == Step(s, [])
    ensures Get(s.rooms, roomId).Some? ==>
      var other := Other(Get(s.rooms, roomId).value, sender);
      var s1 := State(s.queue, Delete(s.rooms, roomId));
      var j1 := JoinQueue(s1, live, sender, newId1);
      && (other in live ==> |r.out| >= 1 && r.out[0] == Emit(other, PeerDisconnected(roomId)))
      && (other in live ==> r == Step(JoinQueue(j1.state, live, other, newId2).state,
                                    [Emit(other, PeerDisconnected(roomId))] + j1.out + JoinQueue(j1.state, live, other, newId2).out))
      && (other !in live ==> r == j1)
    ensures NoDup(s.queue) ==> NoDup(r.state.queue)
  {
    match Get(s.rooms, roomId)
    case None => Step(s, [])
    case Some(room) =>
      var other := Other(room, sender);
      var notify := if other in live then [Emit(other, PeerDisconnected(roomId))] else [];
      var s1 := State(s.queue, Delete(s.rooms, roomId));
      var j1 := JoinQueue(s1, live, sender, newId1);
      var j2 := if other in live then JoinQueue(j1.state, live, other, newId2) else Step(j1.state, []);
      Step(j2.state, notify + j1.out + j2.out)
  }

  /** The `disconnect` handler: leaves the queue, then cleans up the first
      room, in iteration order, that has the id as a member. */
  function Disconnect(s: State, live: set<ConnId>, id: ConnId): (r: Step)
    ensures r.state.queue == LeaveQueue(s, id).queue
    ensures FindRoomOf(s.rooms, id).None? ==> r == Step(LeaveQueue(s, id), [])
    ensures FindRoomOf(s.rooms, id).Some? ==>
      r == CleanupRoom(LeaveQueue(s, id), live, FindRoomOf(s.rooms, id).value, id)
    ensures NoDup(s.queue) ==> id !in r.state.queue && NoDup(r.state.queue)
    ensures forall x :: x in r.state.queue ==> x in s.queue
    ensures id !in Occupied(s.rooms) ==> r.state.rooms == s.rooms && r.out == []
    ensures id in Occupied(s.rooms) && KeysUnique(s.rooms) ==> |r.state.rooms| == |s.rooms| - 1
    ensures KeysUnique(s.rooms) && OneRoomEach(s.rooms) ==> id !in Occupied(r.state.rooms)
    ensures |r.out| <= 1
    ensures DistinctMembers(s.rooms) ==> forall e :: e in r.out ==> e.to != id
  {
    var s1 := LeaveQueue(s, id);
    match FindRoomOf(s.rooms, id)
    case None => Step(s1, [])
    case Some(k) =>
      var r := CleanupRoom(s1, live, k, id);
      assert r.state.rooms == Delete(s.rooms, k);
      assert |r.out| <= 1 by {
        if Get(s.rooms, k).Some? { assert |r.out| == 0 || |r.out| == 1; }
      }
      assert KeysUnique(s.rooms) ==> |r.state.rooms| == |s.rooms| - 1 by {
        if KeysUnique(s.rooms) { assert k in Keys(s.rooms); }
      }
      assert KeysUnique(s.rooms) && OneRoomEach(s.rooms) ==> id !in Occupied(r.state.rooms) by {
        if KeysUnique(s.rooms) && OneRoomEach(s.rooms) {
          DeleteFreesMembers(s.rooms, k, Get(s.rooms, k).value);
        }
      }
      r
  }

  /** When the second of the two oldest is gone, the first goes to the
      back of the queue, behind the connections that joined after it. */
  lemma SurvivorGoesToTail()
    ensures AttemptMatch(State(["A", "B", "C"], []), {"A", "C"}, "r").state == State(["C", "A"], [])
  {
    assert ["A", "B", "C"][2..] == ["C"];
  }

  /** When both are gone, both are queued again, the second first. */
  lemma BothGoneBothRequeued()
    ensures AttemptMatch(State(["A", "B"], []), {}, "r") == Step(State(["B", "A"], []), [])
  {
  }

  /** `handleJoinQueue` with the guard it lacks: a connection that is a
      member of a room is not queued again. */
  function GuardedJoinQueue(s: State, live: set<ConnId>, id: ConnId, newId: RoomId): (r: Step)
    ensures id in Occupied(s.rooms) ==> r == Step(s, [])
    ensures id !in Occupied(s.rooms) ==> r == JoinQueue(s, live, id, newId)
  {
    if id in Occupied(s.rooms) then Step(s, []) else JoinQueue(s, live, id, newId)
  }

  /** The `/health` endpoint. */
  function HealthOf(s: State): (h: Health)
    ensures h.status == "ok"
    ensures h.queueLength == |s.queue|
    ensures KeysUnique(s.rooms) ==> h.activeRooms == |Keys(s.rooms)|
  {
    assert KeysUnique(s.rooms) ==> |Keys(s.rooms)| == |s.rooms| by {
      if KeysUnique(s.rooms) { SizeIsKeyCount(s.rooms); }
    }
    Health("ok", |s.queue|, |s.rooms|)
  }

  /** Leaving twice is leaving once. */
  lemma LeaveIdempotent(s: State, id: ConnId)
    requires NoDup(s.queue)
    ensures LeaveQueue(LeaveQueue(s, id), id) == LeaveQueue(s, id)
  {
  }
}

=== FILE: server_system.dfy ===
/** The server as a whole: the state of `backend/src/server.js` together
    with the set of connected sockets, driven by one socket event at a
    time (Node's event loop runs each handler to completion).  This module
    states which invariant the server keeps and under which behaviour of
    its clients it keeps it. */
module ServerSystem {
  import opened Wrappers
  import opened RoomTable
  import opened Server

  datatype Event =
    | OnConnect(id: ConnId)
    | OnJoinQueue(id: ConnId)
    | OnLeaveQueue(id: ConnId)
    | OnSignal(id: ConnId, kind: Signal, roomId: RoomId, payload: string)
    | OnSkip(id: ConnId, roomId: RoomId)
    | OnDisconnect(id: ConnId)

  datatype World = World(server: State, live: set<ConnId>)

  datatype Transition = Transition(world: World, out: seq<Emit>)

  /** One event.  `newId1` and `newId2` are the ids `generateRoomId` would
      return for the (at most two) match attempts of the event.  socket.io
      removes a socket from `io.sockets.sockets` before its `disconnect`
      handler runs. */
  function Next(w: World, e: Event, newId1: RoomId, newId2: RoomId): (t: Transition)
    ensures e.OnSignal? ==> t.world == w
    ensures e.OnConnect? ==> t.world.server == w.server && t.out == []
    ensures e.OnDisconnect? ==> t.world.live == w.live - {e.id}
    ensures !e.OnConnect? && !e.OnDisconnect? ==> t.world.live == w.live
  {
    match e
    case OnConnect(id) => Transition(World(w.server, w.live + {id}), [])
    case OnJoinQueue(id) =>
      var r := JoinQueue(w.server, w.live, id, newId1);
      Transition(World(r.state, w.live), r.out)
    case OnLeaveQueue(id) => Transition(World(LeaveQueue(w.server, id), w.live), [])
    case OnSignal(id, kind, roomId, payload) =>
      Transition(w, Relay(w.server, w.live, id, kind, roomId, payload))
    case OnSkip(id, roomId) =>
      var r := Skip(w.server, w.live, id, roomId, newId1, newId2);
      Transition(World(r.state, w.live), r.out)
    case OnDisconnect(id) =>
      var live := w.live - {id};
      var r := Disconnect(w.server, live, id);
      Transition(World(r.state, live), r.out)
  }

  /** What the server keeps true as long as its clients are disciplined:
      at most one connection waits, every waiting connection is connected
      and in no room, room ids are unique, every room pairs two different
      connected sockets and no socket is in two rooms. */
  predicate Inv(w: World) {
    && |w.server.queue| <= 1
    && (forall x :: x in w.server.queue ==> x in w.live && x !in Occupied(w.server.rooms))
    && KeysUnique(w.server.rooms)
    && DistinctMembers(w.server.rooms)
    && OneRoomEach(w.server.rooms)
    && Occupied(w.server.rooms) <= w.live
  }

  /** The client discipline under which `Inv` is kept: a socket asks to join
      the queue only while it is in no room, skips only a room it is a member
      of, and the generated room ids are new (and different from each other
      when one event can use both). */
  predicate Disciplined(w: World, e: Event, newId1: RoomId, newId2: RoomId) {
    && newId1 !in Keys(w.server.rooms)
    && newId2 !in Keys(w.server.rooms)
    && match e
       case OnJoinQueue(id) => id in w.live && id !in Occupied(w.server.rooms)
       case OnSkip(id, roomId) =>
         newId1 != newId2 && id in w.live && (Get(w.server.rooms, roomId).Some? ==> HasMember(Get(w.server.rooms, roomId).value, id))
       case _ => true
  }

  lemma InitialInv()
    ensures Inv(World(Initial, {}))
  {
  }

  /** A disciplined join: pairs the joiner with the one waiting connection,
      if there is one, and keeps `Inv`. */
  lemma JoinPreservesInv(s: State, live: set<ConnId>, id: ConnId, newId: RoomId)
    requires Inv(World(s, live))
    requires id in live && id !in Occupied(s.rooms)
    requires newId !in Keys(s.rooms)
    ensures Inv(World(JoinQueue(s, live, id, newId).state, live))
    ensures Keys(JoinQueue(s, live, id, newId).state.rooms) <= Keys(s.rooms) + {newId}
    ensures forall u :: u in Occupied(JoinQueue(s, live, id, newId).state.rooms) ==>
      u in Occupied(s.rooms) || u == id || u in s.queue
  {
    var r := JoinQueue(s, live, id, newId);
    if id !in s.queue && |s.queue| == 1 {
      var x := s.queue[0];
      var e := Entry(newId, Room(x, id));
      assert r.state == State([], s.rooms + [e]);
      OccupiedAppend(s.rooms, e);
      OneRoomEachAppend(s.rooms, e);
    }
  }

  lemma SkipPreservesInv(s: State, live: set<ConnId>, id: ConnId, roomId: RoomId, newId1: RoomId, newId2: RoomId)
    requires Inv(World(s, live))
    requires Disciplined(World(s, live), OnSkip(id, roomId), newId1, newId2)
    ensures Inv(World(Skip(s, live, id, roomId, newId1, newId2).state, live))
  {
    match Get(s.rooms, roomId)
    case None =>
    case Some(room) =>
      var other := Other(room, id);
      var s1 := State(s.queue, Delete(s.rooms, roomId));
      DeleteFreesMembers(s.rooms, roomId, room);
      assert Inv(World(s1, live));
      JoinPreservesInv(s1, live, id, newId1);
      var j1 := JoinQueue(s1, live, id, newId1);
      assert other in live;
      assert other !in s.queue;
      JoinPreservesInv(j1.state, live, other, newId2);
  }

  lemma DisconnectPreservesInv(s: State, live: set<ConnId>, id: ConnId)
    requires Inv(World(s, live))
    ensures Inv(World(Disconnect(s, live - {id}, id).state, live - {id}))
  {
    var r := Disconnect(s, live - {id}, id);
    var s1 := LeaveQueue(s, id);
    match FindRoomOf(s.rooms, id)
    case None =>
    case Some(k) =>
      DeleteFreesMembers(s.rooms, k, Get(s.rooms, k).value);
  }

  /** Every disciplined event keeps `Inv`. */
  lemma NextPreservesInv(w: World, e: Event, newId1: RoomId, newId2: RoomId)
    requires Inv(w)
    requires Disciplined(w, e, newId1, newId2)
    ensures Inv(Next(w, e, newId1, newId2).world)
  {
    match e
    case OnConnect(id) =>
    case OnJoinQueue(id) => JoinPreservesInv(w.server, w.live, id, newId1);
    case OnLeaveQueue(id) =>
    case OnSignal(id, kind, roomId, payload) =>
    case OnSkip(id, roomId) => SkipPreservesInv(w.server, w.live, id, roomId, newId1, newId2);
    case OnDisconnect(id) => DisconnectPreservesInv(w.server, w.live, id);
  }

  /** Under `Inv` no connection is a member of two rooms. */
  lemma OneRoomPerConnection(w: World, k1: RoomId, k2: RoomId)
    requires Inv(w)
    requires k1 in Keys(w.server.rooms) && k2 in Keys(w.server.rooms) && k1 != k2
    ensures Members(Get(w.server.rooms, k1).value) !! Members(Get(w.server.rooms, k2).value)
  {
    RoomsOfDifferentKeysDisjoint(w.server.rooms, k1, k2);
  }

  /** Under `Inv` a disciplined join either waits alone or is paired with
      the connection already waiting, which becomes the initiator; the
      branch of `attemptMatch` that finds a socket gone never runs. */
  lemma JoinPairsWithWaiter(w: World, id: ConnId, newId1: RoomId, newId2: RoomId)
    requires Inv(w)
    requires Disciplined(w, OnJoinQueue(id), newId1, newId2)
    ensures var t := Next(w, OnJoinQueue(id), newId1, newId2);
      && (w.server.queue == [] ==> t.world.server == State([id], w.server.rooms) && t.out == [])
      && (w.server.queue == [id] ==> t.world == w && t.out == [])
      && (|w.server.queue| == 1 && w.server.queue[0] != id ==>
            var x := w.server.queue[0];
            && t.world.server.queue == []
            && t.world.server.rooms == w.server.rooms + [Entry(newId1, Room(x, id))]
            && |t.world.server.rooms| == |w.server.rooms| + 1
            && t.out == [Emit(x, Matched(newId1, true)), Emit(id, Matched(newId1, false))])
  {
  }

  /** The relay delivers a member's message to the other member of the
      room only: never back to the sender, and never to a member of any
      other room. */
  lemma RelayReachesPeerOnly(w: World, sender: ConnId, kind: Signal, roomId: RoomId, payload: string)
    requires Inv(w)
    requires Get(w.server.rooms, roomId).Some?
    requires HasMember(Get(w.server.rooms, roomId).value, sender)
    ensures var room := Get(w.server.rooms, roomId).value;
      var peer := Other(room, sender);
      && peer != sender
      && Next(w, OnSignal(sender, kind, roomId, payload), roomId, roomId).out
           == [Emit(peer, Relayed(kind, roomId, payload))]
      && forall k :: k in Keys(w.server.rooms) && k != roomId ==>
           !HasMember(Get(w.server.rooms, k).value, peer)
  {
    var room := Get(w.server.rooms, roomId).value;
    forall k | k in Keys(w.server.rooms) && k != roomId
      ensures !HasMember(Get(w.server.rooms, k).value, Other(room, sender))
    {
      RoomsOfDifferentKeysDisjoint(w.server.rooms, roomId, k);
    }
  }

  /** Disconnecting a member of a room deletes that room, tells the other
      member exactly once, and leaves the id in neither the queue nor any
      room. */
  lemma DisconnectCleansUp(w: World, id: ConnId, roomId: RoomId)
    requires Inv(w)
    requires Get(w.server.rooms, roomId).Some?
    requires HasMember(Get(w.server.rooms, roomId).value, id)
    ensures var t := Next(w, OnDisconnect(id), roomId, roomId);
      var peer := Other(Get(w.server.rooms, roomId).value, id);
      && t.out == [Emit(peer, PeerDisconnected(roomId))]
      && roomId !in Keys(t.world.server.rooms)
      && |t.world.server.rooms| == |w.server.rooms| - 1
      && id !in t.world.server.queue
      && id !in Occupied(t.world.server.rooms)
      && t.world.server.queue == LeaveQueue(w.server, id).queue
      && forall k :: k != roomId ==> Get(t.world.server.rooms, k) == Get(w.server.rooms, k)
  {
    var rooms := w.server.rooms;
    var k := FindRoomOf(rooms, id).value;
    if k != roomId {
      RoomsOfDifferentKeysDisjoint(rooms, roomId, k);
    }
    assert k == roomId;
  }

  /** After a skip of a room whose members are the only connections in
      play, the server pairs the same two connections again at once, with
      the skipper as initiator. */
  lemma SkipRematchesPair(w: World, id: ConnId, roomId: RoomId, newId1: RoomId, newId2: RoomId)
    requires Inv(w)
    requires w.server.queue == []
    requires Disciplined(w, OnSkip(id, roomId), newId1, newId2)
    requires Get(w.server.rooms, roomId).Some?
    ensures var peer := Other(Get(w.server.rooms, roomId).value, id);
      var t := Next(w, OnSkip(id, roomId), newId1, newId2);
      && t.world.server.queue == []
      && t.world.server.rooms == Delete(w.server.rooms, roomId) + [Entry(newId2, Room(id, peer))]
      && t.out == [Emit(peer, PeerDisconnected(roomId)),
                   Emit(id, Matched(newId2, true)), Emit(peer, Matched(newId2, false))]
  {
    var room := Get(w.server.rooms, roomId).value;
    var peer := Other(room, id);
    assert peer in w.live;
    var d := Delete(w.server.rooms, roomId);
    DeleteFreesMembers(w.server.rooms, roomId, room);
    assert newId2 !in Keys(d);
  }

  /** The server run on a concrete history.  A and B are in room "r1"; A
      skips, so the server re-pairs A and B in "r3".  The client of A then
      sends the join-queue its skip button schedules, and the client of B
      the join-queue its peer-disconnected handler schedules.  Both are
      accepted although A and B are in a room: A and B end up together in
      two rooms, and once A disconnects, room "r5" is left referring to a
      socket that is gone. */
  lemma ClientRejoinSplitsConnection()
    ensures
      var w0 := World(State([], [Entry("r1", Room("A", "B"))]), {"A", "B"});
      var t1 := Next(w0, OnSkip("A", "r1"), "r2", "r3");
      var t2 := Next(t1.world, OnJoinQueue("A"), "r4", "r4");
      var t3 := Next(t2.world, OnJoinQueue("B"), "r5", "r5");
      var t4 := Next(t3.world, OnDisconnect("A"), "r6", "r6");
      && Inv(w0)
      && Disciplined(w0, OnSkip("A", "r1"), "r2", "r3")
      && t1.world.server.rooms == [Entry("r3", Room("A", "B"))]
      && t2.world.server.queue == ["A"]
      && t3.world.server.rooms == [Entry("r3", Room("A", "B")), Entry("r5", Room("A", "B"))]
      && !OneRoomEach(t3.world.server.rooms)
      && t4.world.server.rooms == [Entry("r5", Room("A", "B"))]
      && "A" !in t4.world.live
  {
    var w0 := World(State([], [Entry("r1", Room("A", "B"))]), {"A", "B"});
    var r3 := Entry("r3", Room("A", "B"));
    var w1 := World(State([], [r3]), {"A", "B"});
    assert Inv(w0) && Disciplined(w0, OnSkip("A", "r1"), "r2", "r3") by {
      assert Get(w0.server.rooms, "r1") == Some(Room("A", "B"));
    }
    assert Next(w0, OnSkip("A", "r1"), "r2", "r3").world == w1 by {
      assert Get(w0.server.rooms, "r1") == Some(Room("A", "B"));
      SkipRematchesPair(w0, "A", "r1", "r2", "r3");
    }
    assert Next(w1, OnJoinQueue("A"), "r4", "r4").world == World(State(["A"], [r3]), {"A", "B"});
    assert !OneRoomEach([r3, Entry("r5", Room("A", "B"))]) by {
      assert "A" in Occupied([r3, Entry("r5", Room("A", "B"))][1..]);
    }
    LateJoinOpensSecondRoom();
    DisconnectLeavesSecondRoom();
  }

  /** The join-queue of B, arriving while A waits and both are in "r3",
      opens a second room "r5" for the same pair. */
  lemma LateJoinOpensSecondRoom()
    ensures
      var r3 := Entry("r3", Room("A", "B"));
      Next(World(State(["A"], [r3]), {"A", "B"}), OnJoinQueue("B"), "r5", "r5").world
        == World(State([], [r3, Entry("r5", Room("A", "B"))]), {"A", "B"})
  {
    var r3 := Entry("r3", Room("A", "B"));
    var s2 := State(["A", "B"], [r3]);
    assert ["A"] + ["B"] == s2.queue;
    AttemptMatchSetsRoom(s2, {"A", "B"}, "r5");
  }

  /** A's disconnect removes the first room that holds A, "r3", and leaves
      "r5", which still names A. */
  lemma DisconnectLeavesSecondRoom()
    ensures
      var rooms := [Entry("r3", Room("A", "B")), Entry("r5", Room("A", "B"))];
      Next(World(State([], rooms), {"A", "B"}), OnDisconnect("A"), "r6", "r6").world.server.rooms
        == [Entry("r5", Room("A", "B"))]
  {
    var rooms := [Entry("r3", Room("A", "B")), Entry("r5", Room("A", "B"))];
    assert "A" in Occupied(rooms[1..]);
    assert FindRoomOf(rooms, "A") == Some("r3");
  }

  /** With the guarded join, the disciplined-join requirement is not needed:
      any join from a connected socket keeps `Inv`. */
  lemma GuardedJoinPreservesInv(w: World, id: ConnId, newId: RoomId)
    requires Inv(w)
    requires id in w.live
    requires newId !in Keys(w.server.rooms)
    ensures Inv(World(GuardedJoinQueue(w.server, w.live, id, newId).state, w.live))
  {
    if id !in Occupied(w.server.rooms) {
      JoinPreservesInv(w.server, w.live, id, newId);
    }
  }

  /** The same history with the guarded join: the clients' late
      join-queue calls are ignored and the pair keeps one room. */
  lemma GuardedRejoinKeepsOneRoom()
    ensures
      var w0 := World(State([], [Entry("r1", Room("A", "B"))]), {"A", "B"});
      var t1 := Next(w0, OnSkip("A", "r1"), "r2", "r3");
      var s2 := GuardedJoinQueue(t1.world.server, t1.world.live, "A", "r4");
      var s3 := GuardedJoinQueue(s2.state, t1.world.live, "B", "r5");
      && s3.state == State([], [Entry("r3", Room("A", "B"))])
      && s2.out == [] && s3.out == []
  {
    var w0 := World(State([], [Entry("r1", Room("A", "B"))]), {"A", "B"});
    assert Get(w0.server.rooms, "r1") == Some(Room("A", "B"));
    var t1 := Next(w0, OnSkip("A", "r1"), "r2", "r3");
    assert t1.world.server == State([], [Entry("r3", Room("A", "B"))]);
    assert "A" in Occupied(t1.world.server.rooms) && "B" in Occupied(t1.world.server.rooms);
  }
}

=== FILE: session.dfy ===
/** Server and clients together: the signaling calls a client makes become
    socket events of the server, and what the server emits becomes events
    of the receiving client's hook (the listeners `useWebRTC` registers and
    the thin wrapper `frontend/src/services/signaling.ts`).  The lemmas
    follow one match from the queue to a finished handshake, and one skip
    through the re-joins the clients schedule. */
module Session {
  import opened Wrappers
  import opened RoomTable
  import S = Server
  import SS = ServerSystem
  import C = Client
  import CL = ClientLifecycle

  /** The socket event a client's signaling call raises on the server. */
  function ToServer(id: ConnId, o: C.Outgoing): (e: SS.Event)
    ensures e.id == id
    ensures o.JoinQueue? <==> e.OnJoinQueue?
    ensures o.SendSkip? <==> e.OnSkip?
    ensures e.OnSignal? ==> e.roomId == o.roomId
    ensures o.SendOffer? ==> e == SS.OnSignal(id, S.Offer, o.roomId, o.sdp)
    ensures o.SendAnswer? ==> e == SS.OnSignal(id, S.Answer, o.roomId, o.sdp)
    ensures o.SendIceCandidate? ==> e == SS.OnSignal(id, S.IceCandidate, o.roomId, o.candidate)
  {
    match o
    case JoinQueue => SS.OnJoinQueue(id)
    case SendOffer(r, p) => SS.OnSignal(id, S.Offer, r, p)
    case SendAnswer(r, p) => SS.OnSignal(id, S.Answer, r, p)
    case SendIceCandidate(r, p) => SS.OnSignal(id, S.IceCandidate, r, p)
    case SendSkip(r) => SS.OnSkip(id, r)
  }

  /** The hook event a server message raises.  `ok` and `reply` are the
      outcome and product of the asynchronous WebRTC step the handler
      performs, where it performs one. */
  function FromServer(m: S.Message, ok: bool, reply: C.Payload): (e: CL.Event)
    ensures m.Matched? <==> e.MatchedArrived?
    ensures m.Matched? ==> e.roomId == m.roomId && e.initiator == m.initiator
    ensures m.PeerDisconnected? <==> e == CL.PeerLeft
    ensures m.Relayed? && m.kind == S.Offer ==> e == CL.OfferArrived(ok, reply)
    ensures m.Relayed? && m.kind == S.Answer ==> e == CL.AnswerArrived(ok)
    ensures m.Relayed? && m.kind == S.IceCandidate ==> e == CL.CandidateArrived
  {
    match m
    case Matched(r, initiator) => CL.MatchedArrived(r, initiator, ok, reply)
    case Relayed(kind, _, _) =>
      if kind == S.Offer then CL.OfferArrived(ok, reply)
      else if kind == S.Answer then CL.AnswerArrived(ok)
      else CL.CandidateArrived
    case PeerDisconnected(_) => CL.PeerLeft
  }

  /** One match from end to end.  A connection `b` joins while `a` waits;
      the server pairs them with `a` as initiator; `a`'s hook sends an
      offer, which the server relays to `b` unchanged; `b`'s hook answers
      in the same room, and the server relays the answer back to `a`. */
  lemma MatchToHandshake(w: SS.World, a: ConnId, b: ConnId, newId: RoomId,
                         ca: C.ClientState, cb: C.ClientState, offer: C.Payload, answer: C.Payload)
    requires SS.Inv(w)
    requires w.server.queue == [a]
    requires b in w.live && b != a && b !in Occupied(w.server.rooms)
    requires newId !in Keys(w.server.rooms)
    ensures
      var t1 := SS.Next(w, SS.OnJoinQueue(b), newId, newId);
      && t1.out == [S.Emit(a, S.Matched(newId, true)), S.Emit(b, S.Matched(newId, false))]
      && var ra := CL.Next(ca, FromServer(t1.out[0].msg, true, offer));
      && var rb := CL.Next(cb, FromServer(t1.out[1].msg, true, ""));
      && ra.out == [C.SendOffer(newId, offer)]
      && rb.out == []
      && var t2 := SS.Next(t1.world, ToServer(a, ra.out[0]), newId, newId);
      && t2.out == [S.Emit(b, S.Relayed(S.Offer, newId, offer))]
      && var rb2 := CL.Next(rb.state, FromServer(t2.out[0].msg, true, answer));
      && rb2.out == [C.SendAnswer(newId, answer)]
      && var t3 := SS.Next(t2.world, ToServer(b, rb2.out[0]), newId, newId);
      && t3.out == [S.Emit(a, S.Relayed(S.Answer, newId, answer))]
      && CL.Next(ra.state, FromServer(t3.out[0].msg, true, "")) == C.Reaction(ra.state, [])
  {
    SS.JoinPairsWithWaiter(w, b, newId, newId);
    var t1 := SS.Next(w, SS.OnJoinQueue(b), newId, newId);
    var rooms := t1.world.server.rooms;
    assert rooms == w.server.rooms + [Entry(newId, Room(a, b))];
    assert Get(rooms, newId) == Some(Room(a, b));
  }

  /** The clients' side of the history in
      `ServerSystem.ClientRejoinSplitsConnection`: after the skip button of
      A, the calls A's hook makes and the calls B's hook makes on hearing
      that its peer left are exactly the events that history feeds the
      server: a skip of the room followed by a join-queue from A, and a
      join-queue from B, although the server has already queued (and
      paired) both. */
  lemma ClientsCauseDoubleJoin(ca: C.ClientState, cb: C.ClientState)
    requires ca.roomId == Some("r1")
    ensures
      var ra := CL.Next(ca, CL.SkipPressed);
      var rb := CL.Next(cb, FromServer(S.PeerDisconnected("r1"), true, ""));
      && |ra.out| == 2 && |rb.out| == 1
      && ToServer("A", ra.out[0]) == SS.OnSkip("A", "r1")
      && ToServer("A", ra.out[1]) == SS.OnJoinQueue("A")
      && ToServer("B", rb.out[0]) == SS.OnJoinQueue("B")
  {
  }
}

=== FILE: wrappers.dfy ===
/** The optional value used wherever the source tests a value for `null`
    or `undefined`. */
module Wrappers {

  datatype Option<+T> = None | Some(value: T)
}
